=== FILE: README.md ===
# Shop cart composition and auth reducer — a Dafny model

This project models the logic of a sports-pick subscription storefront.
It covers three parts:

- **Cart merge.** The shop page keeps a page-local *temp cart*. It commits that cart into the store's *persisted cart* on "Add to Cart". Both paths use one merge: drop the package's entries, then append the new selection. The VIP package's selection is appended verbatim. Other packages' selections are de-duplicated by `(plan.id, sports?.id)`.
- **Three package boxes.** Each box is a selection state machine:
  - the flat "VIP All Access" card;
  - the Fantasy box (one plan × any number of sports);
  - the Sports Card box, whose sports are split into a regular group and an event group (UFC, Formula 1), each with its own plan.

  Each click handler is a pure function. It takes the box state captured at render time and returns the new box state plus the list the box forwards to `changeTempCart`.
- **Auth reducer.** The user reducer, with the browser's local storage modelled as a `map<string, string>` field of the state.

Modules, one per file:

- optional.dfy — `Optional`: `undefined`/`null` as `None`
- seqs.dfy — `Seqs`: `Array.prototype.filter`, `String.prototype.indexOf`
- catalog.dfy — `Catalog`: sport, billing plan, package, cart item; `getDayPrice`, totals, plan lists
- cart_merge.dfy — `CartMerge`: the merge shared by `changeTempCart` and `addToCart`
- shop_page.dfy — `ShopPage`: the `Shop` page state and its handlers and effects
- sport_selection.dfy — `SportSelection`: sport toggling by id, one cart item per selected sport
- vip_box.dfy — `VipBox`: `ProductsAndCartBox`
- fantasy_box.dfy — `FantasyBox`: `ProductsAndCartBoxForFantasy`
- sports_card_box.dfy — `SportsCardBox`: `ProductsAndCartBoxForSportsCard`
- user_reducer.dfy — `UserReducer`: `userReducer`, `initialState`

Behaviour of the code worth knowing:

- A single `plan` query value of any string becomes the current view. An unrecognised value shows no package, and an empty one keeps the loading spinner; there is no fallback to `all` (`ShopPage.SelectViewAcceptsAnyString`).
- The Sports Card box's `changeBillingPlan` forwards to `changeTempCart` the cart as it was before the click. In the event group the new items go only into that forwarded list, never into the box's own cart (`SportsCardBox.EventPlanStaysOutOfLocalCart`, `SportsCardBox.DeselectForwardsPreviousCart`).
- Selected sports are an ordered list: a sport is matched by id, and a click on a selected sport removes the first sport with that id.
- `Math.round` rounds halves up. For the non-negative prices modelled here, that is the same as rounding half away from zero.

## Model

| member | source | states |
|---|---|---|
| Seqs.Filter | pages/shop.tsx:89 | the result keeps exactly the elements satisfying the predicate, never more elements than the input |
| Seqs.IndexOf | pages/shop.tsx:90 | -1 exactly when the substring occurs nowhere; otherwise the substring occurs at the result and at no earlier index |
| Catalog.RoundDiv | pages/shop.tsx:44 | `Math.round(p / d)` for non-negative p: the result r satisfies 2p - d < 2dr <= 2p + d, i.e. the nearest integer with halves up |
| Catalog.DayPrice | pages/shop.tsx:37-64 | DAILY and unrecognised durations give the price unchanged; the six others give the nearest integer to price / 3, 7, 30, 90, 180, 360 |
| Catalog.DayPriceExamples | pages/shop.tsx:46-50 | 300 MONTHLY is 10 a day and 100 WEEKLY is 14 a day |
| Catalog.TotalPrice | pages/shop.tsx:396-399 | the total of an empty cart is 0, and no item's price exceeds the total |
| Catalog.TotalPriceConcat | pages/shop.tsx:396-399 | the cart total of a concatenation is the sum of the two totals |
| Catalog.TotalPriceUniform | pages/shop.tsx:599-602 | a cart whose items all carry one plan totals that plan's price times the number of items |
| Catalog.SelectablePlans | pages/shop.tsx:402 | a plan is offered exactly when it is in the package and its description is not 'add-on' |
| Catalog.EventCardPlans | pages/shop.tsx:1076-1077 | an event-card plan is exactly a selectable plan whose name contains "UFC" |
| Catalog.SameKey | pages/shop.tsx:96-98 | two items share a merge key exactly when their plan ids agree and either both lack a sport or both carry sports with equal ids (`sports?.id ===`) |
| Catalog.VipByName | pages/shop.tsx:90 | a package is treated as VIP exactly when "VIP All Access" occurs somewhere in its name |
| CartMerge.ForPackage | pages/shop.tsx:368 | an item is kept exactly when it is in the cart and its plan belongs to the package |
| CartMerge.DropPackage | pages/shop.tsx:89 | an item is kept exactly when it is in the cart and its plan belongs to another package |
| CartMerge.AppendUnique | pages/shop.tsx:95-102 | the existing list is a prefix of the result, and only supplied items are appended |
| CartMerge.AppendUniqueKeys | pages/shop.tsx:95-102 | the keys of the result are exactly the old keys plus every supplied key |
| CartMerge.AppendUniqueFresh | pages/shop.tsx:96-101 | no appended entry repeats the key of any entry before it |
| CartMerge.AppendUniqueFirstWins | pages/shop.tsx:95-102 | an item whose key is neither already present nor carried by an earlier item is appended (first occurrence wins) |
| CartMerge.AppendUniqueInOrder | pages/shop.tsx:95-102 | the appended entries are a subsequence of the supplied items: they keep the order the items were supplied in |
| CartMerge.AppendUniqueFirstOccurrences | pages/shop.tsx:95-102 | the loop appends exactly `FirstOccurrences`: walking back from the last item, an item is kept exactly when its key is in neither the list nor an earlier item |
| CartMerge.RepeatedItemExample | pages/shop.tsx:117-124 | a selection `[x, y, x]` merged into an empty cart gives `[x, y]` |
| CartMerge.AppendUniqueAllNew | pages/shop.tsx:117-124 | items with distinct keys, none already present, are all appended in order |
| CartMerge.Merge | pages/shop.tsx:88-105 | the other packages' entries come first in their order; a VIP pack then gets the items verbatim; another pack gets exactly the first occurrences of the fresh keys, in supplied order (`FirstOccurrences`), so no key repeats and every supplied key is present |
| CartMerge.MergeKeepsOtherPackages | pages/shop.tsx:111-115 | a merge leaves every other package's entries exactly as they were |
| CartMerge.MergeOwnEntries | pages/shop.tsx:111-125 | after a merge every entry of the package comes from the new selection |
| CartMerge.MergeIdempotent | pages/shop.tsx:111-125 | merging the same selection twice equals merging it once: a package is a replace-unit |
| CartMerge.MergeRoundTrip | pages/shop.tsx:111-125 | reading the package's entries back after a merge yields exactly the selection, when it has distinct keys and plan ids are consistent |
| ShopPage.ViewOf | pages/shop.tsx:155-204 | each package view renders exactly for its own `currentPlan` value, the spinner exactly for the empty string, and nothing for any other value |
| ShopPage.Mount | pages/shop.tsx:84-86 | on mount the temp cart equals the persisted cart, the drawer is closed and the spinner shows |
| ShopPage.SelectView | pages/shop.tsx:74-82 | nothing changes until sports are loaded; then a single query value becomes the view, and anything else selects the VIP view |
| ShopPage.SelectViewAcceptsAnyString | pages/shop.tsx:74-82 | an unrecognised single query value shows no package, and an empty one keeps the spinner |
| ShopPage.ChangeTempCart | pages/shop.tsx:88-105 | the temp cart becomes the merge of the items into it and nothing else changes; other packages' temp entries are kept, and the package's entries come from the items |
| ShopPage.AddToCart | pages/shop.tsx:107-128 | an empty selection changes nothing; otherwise the persisted cart becomes the merge and the drawer opens; the temp cart is untouched |
| ShopPage.AddEmptyKeepsCommitted | pages/shop.tsx:107-110 | committing an empty selection leaves the package's committed entries and the closed drawer as they were |
| ShopPage.AddToCartCommits | pages/shop.tsx:111-127 | after a non-empty commit the package's committed entries are exactly the selection, other packages are untouched, and the drawer is open |
| ShopPage.UpdateCart | pages/shop.tsx:132-135 | the persisted cart and the temp cart both become the given list |
| SportSelection.FindSport | pages/shop.tsx:577 | -1 exactly when no selected sport has the id; otherwise the first index with that id |
| SportSelection.ToggleSport | pages/shop.tsx:576-583 | an absent sport is appended; for a present one the first sport with that id is removed and the others keep their order; ids stay unique, and the id set gains or loses exactly that id |
| SportSelection.ToggleAbsentTwice | pages/shop.tsx:576-583 | toggling an unselected sport twice restores the selection |
| SportSelection.SportItems | pages/shop.tsx:540-547 | one item per sport, in the sports' order, each carrying the plan and the package |
| SportSelection.SportsOf | pages/shop.tsx:525-530 | a sport is in the result exactly when some item carries it |
| SportSelection.SportsOfSportItems | pages/shop.tsx:525-530 | reading the sports back from a selection's items gives the selection |
| SportSelection.SportItemsNoDupKeys | pages/shop.tsx:540-547 | sports with distinct ids under one plan give items with distinct cart keys |
| VipBox.SetCartFromProps | pages/shop.tsx:367-373 | with no entries for the package the card is unchanged; otherwise it adopts them and the first one's plan |
| VipBox.ChangeSportCard | pages/shop.tsx:375-394 | the active plan clears the card; another plan becomes the single item; the cart is forwarded; the total is that plan's price or 0 |
| VipBox.ToggleTwiceEmpties | pages/shop.tsx:375-394 | clicking an unselected plan twice leaves the card empty |
| VipBox.SwitchKeepsOnlyLast | pages/shop.tsx:375-394 | clicking A then a different B leaves only B, from any state |
| VipBox.ClickSettles | pages/shop.tsx:363-394 | merging the forwarded list and re-deriving the card gives back the card the click produced |
| FantasyBox.SetCartFromProps | pages/shop.tsx:520-533 | with no entries the box is unchanged; otherwise it adopts them, the first one's plan, and exactly the sports they carry |
| FantasyBox.ChangeBillingPlan | pages/shop.tsx:535-552 | the active plan is cleared or replaced; the cart is the selected sports under the plan (or empty); the total is sports × price |
| FantasyBox.OnChangeItemAt | pages/shop.tsx:575-597 | the sport is toggled, the plan kept, ids stay unique, and the cart is the selected sports under the plan (or empty) |
| FantasyBox.SelectThenRemoveExample | pages/shop.tsx:575-597 | NBA then NFL under P gives (NBA,P),(NFL,P); removing NFL leaves (NBA,P) |
| FantasyBox.RecoverSelection | pages/shop.tsx:520-533 | re-deriving the box from a page cart whose package entries are exactly its own selection's entries gives the same plan, sports and cart; an empty selection has no entries and the box stays as it is |
| FantasyBox.SettlesAfterMerge | pages/shop.tsx:516-533 | a consistent box re-derived from the merge of its own cart is unchanged |
| FantasyBox.PlanClickSettles | pages/shop.tsx:535-552 | after a plan click, merging and re-deriving gives back the state the click produced |
| FantasyBox.SportClickSettles | pages/shop.tsx:575-597 | after a sport click, merging and re-deriving gives back the state the click produced |
| SportsCardBox.PartitionSports | pages/shop.tsx:773-779 | UFC and Formula 1 go to the event group and all others to the regular group: disjoint and exhaustive, counting multiplicity |
| SportsCardBox.PartitionKeepsOrder | pages/shop.tsx:773-779 | partitioning a concatenation concatenates the partitions, so order is kept |
| SportsCardBox.GroupItems | pages/shop.tsx:788-797 | an item is kept exactly when it has a sport of the group |
| SportsCardBox.ScanPlan | pages/shop.tsx:788-798 | with no item of the group the plan is unchanged; otherwise it is the plan of the last item of the group |
| SportsCardBox.SetCartFromProps | pages/shop.tsx:770-802 | sports are partitioned; selected sports are reset; with entries, the box adopts them and each group's sports and last plan |
| SportsCardBox.WithoutPlan | pages/shop.tsx:811-816 | an item is kept exactly when its plan is not the active one; with no active plan, all are kept |
| SportsCardBox.WithoutSport | pages/shop.tsx:924 | an item is kept exactly when it carries no sport with that id |
| SportsCardBox.ChangeBillingPlan | pages/shop.tsx:808-854 | local cart: old cart minus the previous plan's items, plus the sports under the new plan (regular group only); forwarded: the old cart, plus the new items (event group only) |
| SportsCardBox.EventPlanStaysOutOfLocalCart | pages/shop.tsx:832-851 | an event-group plan click adds nothing to the local cart, while its new items are in the forwarded list |
| SportsCardBox.DeselectForwardsPreviousCart | pages/shop.tsx:808-853 | after deselecting a plan, its items have left the local cart but are still forwarded |
| SportsCardBox.ClearRegularPlanExample | pages/shop.tsx:810-830 | with NBA under P1, UFC under P2 and MLB under P1 in the cart, clicking P1 leaves exactly the UFC item |
| SportsCardBox.RegularPlanTotal | pages/shop.tsx:953-956 | after selecting a regular plan the total is the kept items' total plus sports × plan price |
| SportsCardBox.OnChangeItemAt | pages/shop.tsx:907-951 | the sport is toggled in its group; removal filters out exactly that sport's items, keeping the rest in order; an addition appends one item only when the group has a plan |
| SportsCardBox.AddThenRemoveSport | pages/shop.tsx:907-951 | selecting an unselected sport and deselecting it again restores the box, when the cart held no item of that sport |
| SportsCardBox.RemoveSportKeepsOrder | pages/shop.tsx:924 | removing a sport's items keeps the order of the rest |
| SportsCardBox.RecoverPlans | pages/shop.tsx:785-798 | re-deriving from any page cart whose package has entries, each group's entries sharing one plan, adopts exactly the package's entries and selects that plan for every group with an entry, keeping the box's plan for a group with none |
| SportsCardBox.RecoverSports | pages/shop.tsx:785-801 | re-deriving from any page cart whose package entries in the regular and event groups are the items of two selections, interleaved in any order and among other packages' entries, gives back both sport lists in order, whether or not either group is empty |
| SportsCardBox.RegularOnlyReadBack | pages/shop.tsx:785-801 | a cart holding another package's entry and NBA under P1 selects P1 and [NBA] for the regular group and keeps the event group's plan |
| SportsCardBox.InterleavedReadBack | pages/shop.tsx:785-801 | NBA under P1, UFC under P2, then MLB under P1 read back as [NBA, MLB] and [UFC] |
| UserReducer.InitialState | redux/reducers/user.ts:40-45 | no token, profile or error, not loading |
| UserReducer.Reduce | redux/reducers/user.ts:47-98 | each action's effect on token, profile, error, loading and the storage key 'token'; unknown actions and a payload-less login success change nothing |
| UserReducer.SignupLeavesSession | redux/reducers/user.ts:52-66 | no signup action changes the token or the storage |
| UserReducer.OnlyTokenKeyWritten | redux/reducers/user.ts:72-93 | no action changes any storage key other than 'token' |
| UserReducer.ReducePreservesTokenStored | redux/reducers/user.ts:72-93 | if the in-memory token is the stored token before an action, it still is after |
| UserReducer.RunPreservesTokenStored | redux/reducers/user.ts:47-98 | the same holds across any sequence of actions |
| UserReducer.LoginThenLogout | redux/reducers/user.ts:72-93 | a login success followed by a logout leaves no token in memory or storage |

## Left out

- Rendering: JSX, CSS modules, icons, lazy loading, number formatting, the `SPORTS_INFO` style lookups, the `sports.slice(0, 3)` display cut, and the FAQ visibility toggle. None of them changes cart or auth state.
- The in-place billing-plan sorts (pages/shop.tsx:357-359, 401 and their copies). The comparator never reports equality, so the order of equal prices depends on the JavaScript engine. The model takes plans in the order given.
- `getStaticProps` and `PackageAPIs.getPackages()`: network I/O. Packages and sports are inputs.
- The `HYDRATE` case of the user reducer. It spreads a framework payload of unknown shape.
- React scheduling. Each handler is one pure step over its render-time state. The effect that re-runs `setCartFromProps` when the temp cart changes appears only in the `ClickSettles` lemmas. The repeated `setActivePlan1`/`setActivePlan2` calls are last-write-wins (`SportsCardBox.ScanPlan`).
- Floating-point prices. Prices are non-negative integers, so `Math.round(p / d)` is `(2p + d) / (2d)`.
- `closeDrawer` and the cart drawer component. The drawer's edits reach the page through `UpdateCart`, which is modelled.
- The display-only split of the Sports Card temp cart into UFC/F1 and other items (pages/shop.tsx:960-965). Only the whole-cart total is modelled.
- The shape of `UserProfile`. It is a type parameter, and a signup success stores whatever payload arrives.
- `typeof query.plan !== undefined` (pages/shop.tsx:76) is always true, so it adds no case.
- pages/index.tsx and components/AppFooter.tsx hold static markup, a boolean toggle, and an `OPEN_MODAL` dispatch. They are not part of this model.

=== FILE: cart_merge.dfy ===
/** The merge that `changeTempCart` and `addToCart` both perform: replace a
    package's entries in a cart by a new selection for that package. */
module CartMerge {
  import opened Optional
  import opened Seqs
  import opened Catalog

  /** Predicate values used with `Filter`: an item belongs, or does not
      belong, to the package with id `packId`. */
  function InPackage(packId: int): CartItem -> bool {
    (item: CartItem) => item.plan.package == packId
  }

  function NotInPackage(packId: int): CartItem -> bool {
    (item: CartItem) => item.plan.package != packId
  }

  /** The entries of a cart that belong to the package (`setCartFromProps`). */
  function ForPackage(cart: seq<CartItem>, packId: int): (r: seq<CartItem>)
    ensures forall x :: x in r <==> x in cart && x.plan.package == packId
  {
    Filter(cart, InPackage(packId))
  }

  /** The entries of a cart that belong to other packages, in order. */
  function DropPackage(cart: seq<CartItem>, packId: int): (r: seq<CartItem>)
    ensures forall x :: x in r <==> x in cart && x.plan.package != packId
  {
    Filter(cart, NotInPackage(packId))
  }

  /** The set of de-duplication keys present in a cart. */
  function Keys(s: seq<CartItem>): set<CartKey> {
    set i | 0 <= i < |s| :: KeyOf(s[i])
  }

  lemma KeysConcat(a: seq<CartItem>, b: seq<CartItem>)
    ensures Keys(a + b) == Keys(a) + Keys(b)
  {
    forall k | k in Keys(a) + Keys(b) ensures k in Keys(a + b) {
      if k in Keys(a) {
        var i :| 0 <= i < |a| && KeyOf(a[i]) == k;
        assert (a + b)[i] == a[i];
      } else {
        var i :| 0 <= i < |b| && KeyOf(b[i]) == k;
        assert (a + b)[|a| + i] == b[i];
      }
    }
  }

  /** No two entries share a key. */
  predicate NoDupKeys(s: seq<CartItem>) {
    forall i, j :: 0 <= i < j < |s| ==> KeyOf(s[i]) != KeyOf(s[j])
  }

  /** The non-VIP loop: append each item of `items`, in order, unless an entry
      already in the list has its `(plan.id, sports?.id)` key. */
  function AppendUnique(acc: seq<CartItem>, items: seq<CartItem>): (r: seq<CartItem>)
    ensures |acc| <= |r| <= |acc| + |items|
    ensures r[..|acc|] == acc
    ensures forall x :: x in r[|acc|..] ==> x in items
    decreases |items|
  {
    if |items| == 0 then acc
    else
      var acc' := if KeyOf(items[0]) in Keys(acc) then acc else acc + [items[0]];
      var r := AppendUnique(acc', items[1..]);
      assert r[..|acc|] == acc'[..|acc|];
      assert forall x :: x in r[|acc|..] ==> x in acc'[|acc|..] || x in r[|acc'|..];
      r
  }

  /** Every supplied key ends up in the result, and no other key appears. */
  lemma {:induction false} AppendUniqueKeys(acc: seq<CartItem>, items: seq<CartItem>)
    ensures Keys(AppendUnique(acc, items)) == Keys(acc) + Keys(items)
    decreases |items|
  {
    if |items| == 0 {
      assert Keys(items) == {};
    } else {
      var head := items[0];
      var acc' := if KeyOf(head) in Keys(acc) then acc else acc + [head];
      AppendUniqueKeys(acc', items[1..]);
      assert items == [head] + items[1..];
      KeysConcat([head], items[1..]);
      KeysConcat(acc, [head]);
      assert Keys([head]) == {KeyOf(head)};
    }
  }

  /** No appended entry repeats a key that appears before it. */
  lemma {:induction false} AppendUniqueFresh(acc: seq<CartItem>, items: seq<CartItem>)
    ensures var r := AppendUnique(acc, items);
      forall j :: |acc| <= j < |r| ==> KeyOf(r[j]) !in Keys(r[..j])
    decreases |items|
  {
    if |items| > 0 {
      var head := items[0];
      var acc' := if KeyOf(head) in Keys(acc) then acc else acc + [head];
      AppendUniqueFresh(acc', items[1..]);
      var r := AppendUnique(acc, items);
      assert r == AppendUnique(acc', items[1..]);
      forall j | |acc| <= j < |r| ensures KeyOf(r[j]) !in Keys(r[..j]) {
        if j < |acc'| {
          assert acc' == acc + [head] && j == |acc|;
          assert r[..|acc'|] == acc';
          assert r[..j] == acc;
          assert r[j] == head;
        }
      }
    }
  }

  /** First occurrence wins: an item whose key appears neither in `acc` nor
      among the items before it is appended. */
  lemma {:induction false} AppendUniqueFirstWins(acc: seq<CartItem>, items: seq<CartItem>, i: int)
    requires 0 <= i < |items|
    requires KeyOf(items[i]) !in Keys(acc + items[..i])
    ensures items[i] in AppendUnique(acc, items)[|acc|..]
    decreases |items|
  {
    var head := items[0];
    var acc' := if KeyOf(head) in Keys(acc) then acc else acc + [head];
    var r := AppendUnique(acc, items);
    if i == 0 {
      assert acc + items[..0] == acc;
      assert r[|acc|] == head;
    } else {
      assert items[1..][i - 1] == items[i];
      assert acc + items[..i] == (acc + [head]) + items[1..][..i - 1];
      KeysConcat(acc + [head], items[1..][..i - 1]);
      KeysConcat(acc', items[1..][..i - 1]);
      KeysConcat(acc, [head]);
      AppendUniqueFirstWins(acc', items[1..], i - 1);
      assert r[|acc'|..] == r[|acc|..][|acc'| - |acc|..];
    }
  }

  /** The items a de-duplicating append keeps, defined independently of the
      loop: walking from the last item back, an item is kept exactly when
      its key is neither in `acc` nor carried by an earlier item. */
  function FirstOccurrences(acc: seq<CartItem>, items: seq<CartItem>): seq<CartItem>
    decreases |items|
  {
    if |items| == 0 then []
    else
      var init := items[..|items| - 1];
      var last := items[|items| - 1];
      FirstOccurrences(acc, init) + (if KeyOf(last) in Keys(acc + init) then [] else [last])
  }

  /** Appending one more item runs the loop one more step. */
  lemma {:induction false} AppendUniqueSnoc(acc: seq<CartItem>, items: seq<CartItem>, x: CartItem)
    ensures var r := AppendUnique(acc, items);
      AppendUnique(acc, items + [x]) == if KeyOf(x) in Keys(r) then r else r + [x]
    decreases |items|
  {
    if |items| == 0 {
      assert items + [x] == [x];
      assert [x][1..] == [];
    } else {
      var head := items[0];
      var acc' := if KeyOf(head) in Keys(acc) then acc else acc + [head];
      assert (items + [x])[0] == head;
      assert (items + [x])[1..] == items[1..] + [x];
      AppendUniqueSnoc(acc', items[1..], x);
    }
  }

  /** The loop appends exactly the first occurrences of fresh keys, in the
      order the items were supplied. */
  lemma {:induction false} AppendUniqueFirstOccurrences(acc: seq<CartItem>, items: seq<CartItem>)
    ensures AppendUnique(acc, items) == acc + FirstOccurrences(acc, items)
    decreases |items|
  {
    if |items| == 0 {
      assert AppendUnique(acc, items) == acc;
    } else {
      var init := items[..|items| - 1];
      var last := items[|items| - 1];
      assert items == init + [last];
      AppendUniqueFirstOccurrences(acc, init);
      AppendUniqueSnoc(acc, init, last);
      AppendUniqueKeys(acc, init);
      KeysConcat(acc, init);
    }
  }

  /** Appended entries keep the order in which the items were supplied. */
  lemma {:induction false} AppendUniqueInOrder(acc: seq<CartItem>, items: seq<CartItem>)
    ensures IsSubsequence(AppendUnique(acc, items)[|acc|..], items)
    decreases |items|
  {
    var r := AppendUnique(acc, items);
    if |items| == 0 {
      assert r == acc;
    } else {
      var head := items[0];
      if KeyOf(head) in Keys(acc) {
        AppendUniqueInOrder(acc, items[1..]);
      } else {
        AppendUniqueInOrder(acc + [head], items[1..]);
        assert r[|acc|..][0] == head;
        assert r[|acc|..][1..] == r[|acc| + 1..];
      }
    }
  }

  /** `changeTempCart(pack, items)` / the merge inside `addToCart`: drop the
      package's entries, then append `items` verbatim for the VIP package or
      de-duplicated by key otherwise. */
  function Merge(cart: seq<CartItem>, pack: Package, items: seq<CartItem>): (r: seq<CartItem>)
    ensures |r| >= |DropPackage(cart, pack.id)|
    ensures r[..|DropPackage(cart, pack.id)|] == DropPackage(cart, pack.id)
    ensures IsVip(pack) ==> r == DropPackage(cart, pack.id) + items
    ensures !IsVip(pack) ==>
      var kept := DropPackage(cart, pack.id);
      && r == kept + FirstOccurrences(kept, items)
      && Keys(r) == Keys(kept) + Keys(items)
      && (forall x :: x in r[|kept|..] ==> x in items)
      && IsSubsequence(r[|kept|..], items)
      && (forall j :: |kept| <= j < |r| ==> KeyOf(r[j]) !in Keys(r[..j]))
      && (forall i :: 0 <= i < |items| && KeyOf(items[i]) !in Keys(kept + items[..i]) ==>
            items[i] in r[|kept|..])
  {
    var kept := DropPackage(cart, pack.id);
    if IsVip(pack) then kept + items
    else
      AppendUniqueKeys(kept, items);
      AppendUniqueFresh(kept, items);
      AppendUniqueInOrder(kept, items);
      AppendUniqueFirstOccurrences(kept, items);
      forall i | 0 <= i < |items| && KeyOf(items[i]) !in Keys(kept + items[..i])
        ensures items[i] in AppendUnique(kept, items)[|kept|..]
      {
        AppendUniqueFirstWins(kept, items, i);
      }
      AppendUnique(kept, items)
  }

  /** The first occurrences in `[x, y, x]` over an empty list are `[x, y]`. */
  lemma FirstOccurrencesRepeat(x: CartItem, y: CartItem)
    requires KeyOf(x) != KeyOf(y)
    ensures FirstOccurrences([], [x, y, x]) == [x, y]
  {
    var e: seq<CartItem> := [];
    assert [x][..0] == e && e + e == e;
    assert Keys(e) == {};
    assert FirstOccurrences(e, [x]) == [x];
    assert [x, y][..1] == [x] && [x, y][1] == y;
    assert Keys(e + [x]) == {KeyOf(x)} by {
      assert (e + [x])[0] == x;
    }
    assert FirstOccurrences(e, [x, y]) == [x, y];
    assert [x, y, x][..2] == [x, y] && [x, y, x][2] == x;
    assert KeyOf(x) in Keys(e + [x, y]) by {
      assert (e + [x, y])[0] == x;
    }
  }

  /** Example: a selection that repeats an item keeps its first copy, in
      place; `[x, y, x]` merged into an empty cart gives `[x, y]`. */
  lemma RepeatedItemExample(pack: Package, x: CartItem, y: CartItem)
    requires !IsVip(pack)
    requires KeyOf(x) != KeyOf(y)
    ensures Merge([], pack, [x, y, x]) == [x, y]
  {
    var e: seq<CartItem> := [];
    assert DropPackage(e, pack.id) == e;
    FirstOccurrencesRepeat(x, y);
  }

  /** Every item of the selection belongs to the package. */
  predicate AllInPackage(items: seq<CartItem>, packId: int) {
    forall x :: x in items ==> x.plan.package == packId
  }

  /** Plan ids identify plans across packages: an entry of `cart` and an item
      that share a plan id belong to the same package. */
  predicate PlanIdsAgree(cart: seq<CartItem>, items: seq<CartItem>) {
    forall x, y :: x in cart && y in items && x.plan.id == y.plan.id ==> x.plan.package == y.plan.package
  }

  /** When no item repeats a key and none is already present, the loop
      appends every item. */
  lemma {:induction false} AppendUniqueAllNew(acc: seq<CartItem>, items: seq<CartItem>)
    requires NoDupKeys(items)
    requires Keys(acc) !! Keys(items)
    ensures AppendUnique(acc, items) == acc + items
    decreases |items|
  {
    if |items| > 0 {
      var head := items[0];
      var tail := items[1..];
      assert KeyOf(head) !in Keys(acc) by {
        assert KeyOf(items[0]) in Keys(items);
      }
      assert KeyOf(head) !in Keys(tail) by {
        forall i | 0 <= i < |tail| ensures KeyOf(tail[i]) != KeyOf(head) {
          assert tail[i] == items[i + 1];
        }
      }
      assert Keys(tail) <= Keys(items) by {
        forall i | 0 <= i < |tail| ensures KeyOf(tail[i]) in Keys(items) {
          assert tail[i] == items[i + 1];
        }
      }
      assert NoDupKeys(tail) by {
        forall i, j | 0 <= i < j < |tail| ensures KeyOf(tail[i]) != KeyOf(tail[j]) {
          assert tail[i] == items[i + 1] && tail[j] == items[j + 1];
        }
      }
      KeysConcat(acc, [head]);
      assert Keys([head]) == {KeyOf(head)} by {
        assert [head][0] == head;
      }
      AppendUniqueAllNew(acc + [head], tail);
      assert (acc + [head]) + tail == acc + items;
    }
  }

  /** Either way a merge is the other packages' entries followed by entries
      taken from the selection. */
  lemma MergeSplit(cart: seq<CartItem>, pack: Package, items: seq<CartItem>)
    ensures var kept := DropPackage(cart, pack.id);
      var m := Merge(cart, pack, items);
      m == kept + m[|kept|..] && forall x :: x in m[|kept|..] ==> x in items
  {
  }

  /** A merge leaves every other package's entries as they were, in order. */
  lemma {:induction false} MergeKeepsOtherPackages(cart: seq<CartItem>, pack: Package, items: seq<CartItem>)
    requires AllInPackage(items, pack.id)
    ensures DropPackage(Merge(cart, pack, items), pack.id) == DropPackage(cart, pack.id)
  {
    var kept := DropPackage(cart, pack.id);
    var m := Merge(cart, pack, items);
    var tail := m[|kept|..];
    MergeSplit(cart, pack, items);
    assert AllInPackage(tail, pack.id);
    FilterConcat(kept, tail, NotInPackage(pack.id));
    FilterAll(kept, NotInPackage(pack.id));
    FilterNone(tail, NotInPackage(pack.id));
  }

  /** After a merge the package's entries all come from the new selection. */
  lemma MergeOwnEntries(cart: seq<CartItem>, pack: Package, items: seq<CartItem>)
    ensures forall x :: x in ForPackage(Merge(cart, pack, items), pack.id) ==> x in items
  {
    var kept := DropPackage(cart, pack.id);
    var m := Merge(cart, pack, items);
    var tail := m[|kept|..];
    MergeSplit(cart, pack, items);
    forall x | x in ForPackage(m, pack.id) ensures x in items {
      assert x !in kept;
      assert x in tail;
    }
  }

  /** Merging the same selection twice changes nothing more: the package is a
      replace-unit. */
  lemma MergeIdempotent(cart: seq<CartItem>, pack: Package, items: seq<CartItem>)
    requires AllInPackage(items, pack.id)
    ensures Merge(Merge(cart, pack, items), pack, items) == Merge(cart, pack, items)
  {
    MergeKeepsOtherPackages(cart, pack, items);
  }

  /** Round trip: after a merge, reading the package's entries back
      (`setCartFromProps`) yields exactly the merged selection, and every
      other package's entries are as before. */
  lemma MergeRoundTrip(cart: seq<CartItem>, pack: Package, items: seq<CartItem>)
    requires AllInPackage(items, pack.id)
    requires NoDupKeys(items)
    requires PlanIdsAgree(cart, items)
    ensures ForPackage(Merge(cart, pack, items), pack.id) == items
    ensures DropPackage(Merge(cart, pack, items), pack.id) == DropPackage(cart, pack.id)
  {
    var kept := DropPackage(cart, pack.id);
    if !IsVip(pack) {
      assert Keys(kept) !! Keys(items);
      AppendUniqueAllNew(kept, items);
    }
    assert Merge(cart, pack, items) == kept + items;
    FilterConcat(kept, items, InPackage(pack.id));
    FilterNone(kept, InPackage(pack.id));
    FilterAll(items, InPackage(pack.id));
    MergeKeepsOtherPackages(cart, pack, items);
  }
}

=== FILE: catalog.dfy ===
/** The shop's read-only catalogue records (sports, billing plans, packages),
    the cart item that pairs them, and the integer pricing rules of the shop
    page. */
module Catalog {
  import opened Optional
  import opened Seqs

  datatype Sport = Sport(id: int, name: string)

  /** The billing period of a plan; any label the page does not recognise
      is kept as `OtherDuration`. */
  datatype Duration =
    | Daily
    | Every3Days
    | Weekly
    | Monthly
    | Quarterly
    | SemiAnnual
    | Annual
    /** Any other label. It never carries one of the seven labels above:
        `OtherDuration("WEEKLY")` does not stand for a weekly plan. */
    | OtherDuration(text: string)

  /** A priced billing option. `package` is the id of the package that owns
      it; prices are whole minor currency units. */
  datatype BillingPlan = BillingPlan(
    id: int,
    name: string,
    package: int,
    price: nat,
    duration: Duration,
    description: string)

  datatype Package = Package(id: int, name: string, billingPlans: seq<BillingPlan>)

  /** One (sport, plan) selection. `sports` is absent for the flat VIP plan;
      `owner` is only set by the VIP card. */
  datatype CartItem = CartItem(
    sports: Option<Sport>,
    plan: BillingPlan,
    pack: Package,
    autoRenewal: bool,
    owner: Option<int>)

  /** The identity the merge de-duplicates on: `(plan.id, sports?.id)`. */
  datatype CartKey = CartKey(planId: int, sportId: Option<int>)

  function KeyOf(item: CartItem): CartKey {
    CartKey(item.plan.id, if item.sports.Some? then Some(item.sports.value.id) else None)
  }

  /** Two items share a key exactly when `a.plan.id === b.plan.id &&
      a.sports?.id === b.sports?.id`: two items without a sport match, an
      item with a sport never matches one without. */
  lemma SameKey(a: CartItem, b: CartItem)
    ensures KeyOf(a) == KeyOf(b) <==>
      a.plan.id == b.plan.id &&
      ((a.sports.None? && b.sports.None?) ||
       (a.sports.Some? && b.sports.Some? && a.sports.value.id == b.sports.value.id))
  {
  }

  /** `active?.id === plan.id`: the plan is the one currently selected. */
  predicate IsActive(active: Option<BillingPlan>, plan: BillingPlan) {
    active.Some? && active.value.id == plan.id
  }

  const VipName: string := "VIP All Access"

  /** The flat-plan package is recognised by its name containing "VIP All Access". */
  predicate IsVip(pack: Package) {
    Contains(pack.name, VipName)
  }

  /** A package is treated as VIP exactly when "VIP All Access" occurs
      somewhere in its name, not only when the name is exactly that. */
  lemma VipByName(pack: Package)
    ensures IsVip(pack) <==> exists i :: OccursAt(pack.name, VipName, i)
  {
  }

  /** The number of days a duration spans, for the durations the page
      amortises; `None` for DAILY and for unrecognised labels. */
  function DaysIn(d: Duration): Option<nat> {
    match d
    case Every3Days => Some(3)
    case Weekly => Some(7)
    case Monthly => Some(30)
    case Quarterly => Some(90)
    case SemiAnnual => Some(180)
    case Annual => Some(360)
    case _ => None
  }

  /** `Math.round(p / d)` for a non-negative `p`: the nearest integer, with
      halves rounded up. */
  function RoundDiv(p: nat, d: nat): (r: nat)
    requires d > 0
    ensures 2 * p - d < 2 * d * r <= 2 * p + d
  {
    var q := (2 * p + d) / (2 * d);
    assert 2 * d * q <= 2 * p + d < 2 * d * q + 2 * d;
    q
  }

  /** The amortised daily price shown beside a plan. */
  function DayPrice(plan: BillingPlan): (r: nat)
    ensures DaysIn(plan.duration).None? ==> r == plan.price
    ensures DaysIn(plan.duration).Some? ==>
      var d := DaysIn(plan.duration).value;
      2 * plan.price - d < 2 * d * r <= 2 * plan.price + d
  {
    match DaysIn(plan.duration)
    case None => plan.price
    case Some(d) => RoundDiv(plan.price, d)
  }

  /** Two worked examples: 300 a month is 10 a day and 100 a week is 14 a
      day. */
  lemma DayPriceExamples(monthly: BillingPlan, weekly: BillingPlan)
    requires monthly.duration == Monthly && monthly.price == 300
    requires weekly.duration == Weekly && weekly.price == 100
    ensures DayPrice(monthly) == 10
    ensures DayPrice(weekly) == 14
  {
  }

  /** The sum of the plan prices of a cart. */
  function TotalPrice(cart: seq<CartItem>): (r: nat)
    ensures |cart| == 0 ==> r == 0
    ensures forall i :: 0 <= i < |cart| ==> r >= cart[i].plan.price
    decreases |cart|
  {
    if |cart| == 0 then 0 else cart[0].plan.price + TotalPrice(cart[1..])
  }

  /** The total of a concatenation is the sum of the totals. */
  lemma {:induction false} TotalPriceConcat(a: seq<CartItem>, b: seq<CartItem>)
    ensures TotalPrice(a + b) == TotalPrice(a) + TotalPrice(b)
    decreases |a|
  {
    if |a| == 0 {
      assert a + b == b;
    } else {
      assert (a + b)[1..] == a[1..] + b;
      TotalPriceConcat(a[1..], b);
    }
  }

  /** A cart whose every item carries the same plan costs that plan's price
      once per item. */
  lemma {:induction false} TotalPriceUniform(cart: seq<CartItem>, plan: BillingPlan)
    requires forall i :: 0 <= i < |cart| ==> cart[i].plan == plan
    ensures TotalPrice(cart) == |cart| * plan.price
    decreases |cart|
  {
    if |cart| > 0 {
      TotalPriceUniform(cart[1..], plan);
    }
  }

  predicate IsPrimaryPlan(plan: BillingPlan) {
    plan.description != "add-on"
  }

  predicate IsUfcPlan(plan: BillingPlan) {
    Contains(plan.name, "UFC")
  }

  /** The plans offered as cards: every plan except the add-ons, in order. */
  function SelectablePlans(plans: seq<BillingPlan>): (r: seq<BillingPlan>)
    ensures forall p :: p in r <==> p in plans && p.description != "add-on"
  {
    Filter(plans, IsPrimaryPlan)
  }

  /** The plans offered for the event-based group: selectable plans whose
      name contains "UFC". */
  function EventCardPlans(plans: seq<BillingPlan>): (r: seq<BillingPlan>)
    ensures forall p :: p in r <==>
      p in plans && p.description != "add-on" && exists i :: OccursAt(p.name, "UFC", i)
  {
    Filter(SelectablePlans(plans), IsUfcPlan)
  }
}

=== FILE: fantasy_box.dfy ===
/** `ProductsAndCartBoxForFantasy`: one plan applied to any number of
    sports; the local cart is always the selected sports under the
    selected plan. */
module FantasyBox {
  import opened Optional
  import opened Catalog
  import opened CartMerge
  import opened ShopPage
  import opened SportSelection

  datatype FantasyState = FantasyState(
    activePlan: Option<BillingPlan>,
    activeSports: seq<Sport>,
    tempCart: seq<CartItem>)

  /** The cart a selection stands for: each selected sport under the
      selected plan, or nothing while no plan is selected. */
  function SelectionItems(activeSports: seq<Sport>, activePlan: Option<BillingPlan>, pack: Package): seq<CartItem> {
    if activePlan.Some? then SportItems(activeSports, activePlan.value, pack) else []
  }

  /** The local cart agrees with the selection. */
  predicate Consistent(box: FantasyState, pack: Package) {
    box.tempCart == SelectionItems(box.activeSports, box.activePlan, pack)
  }

  /** `setCartFromProps`: adopt the package's entries, the plan of the first
      one and the sports of those that have one; keep the current state
      when the package has no entries. */
  function SetCartFromProps(box: FantasyState, pack: Package, cartItems: seq<CartItem>): (r: FantasyState)
    ensures |ForPackage(cartItems, pack.id)| == 0 ==> r == box
    ensures |ForPackage(cartItems, pack.id)| > 0 ==>
      && r.tempCart == ForPackage(cartItems, pack.id)
      && r.activePlan == Some(r.tempCart[0].plan)
      && (forall s :: s in r.activeSports <==> exists x :: x in r.tempCart && x.sports == Some(s))
  {
    var fromCart := ForPackage(cartItems, pack.id);
    if |fromCart| > 0 then FantasyState(Some(fromCart[0].plan), SportsOf(fromCart), fromCart)
    else box
  }

  /** `changeBillingPlan`: clicking the selected plan clears it and empties
      the cart; any other plan becomes the selection, over the selected
      sports. */
  function ChangeBillingPlan(box: FantasyState, pack: Package, plan: BillingPlan): (r: Step<FantasyState>)
    ensures r.box.activeSports == box.activeSports
    ensures r.box.activePlan == if IsActive(box.activePlan, plan) then None else Some(plan)
    ensures Consistent(r.box, pack)
    ensures r.forwarded == r.box.tempCart
    ensures TotalPrice(r.box.tempCart) == if IsActive(box.activePlan, plan) then 0 else |box.activeSports| * plan.price
  {
    if IsActive(box.activePlan, plan) then
      Step(box.(activePlan := None, tempCart := []), [])
    else
      var newCart := SportItems(box.activeSports, plan, pack);
      TotalPriceUniform(newCart, plan);
      Step(box.(activePlan := Some(plan), tempCart := newCart), newCart)
  }

  /** `onChangeItemAt`: toggle the sport and rebuild the cart from the
      selection. */
  function OnChangeItemAt(box: FantasyState, pack: Package, sport: Sport): (r: Step<FantasyState>)
    ensures r.box.activePlan == box.activePlan
    ensures r.box.activeSports == ToggleSport(box.activeSports, sport)
    ensures UniqueIds(box.activeSports) ==> UniqueIds(r.box.activeSports)
    ensures Consistent(r.box, pack)
    ensures r.forwarded == r.box.tempCart
  {
    var active := ToggleSport(box.activeSports, sport);
    var newCart := SelectionItems(active, box.activePlan, pack);
    Step(box.(activeSports := active, tempCart := newCart), newCart)
  }

  /** Example: NBA and NFL under plan P give the items (NBA, P), (NFL, P) in
      that order; clicking NFL again leaves (NBA, P). */
  lemma SelectThenRemoveExample(box: FantasyState, pack: Package, p: BillingPlan, nba: Sport, nfl: Sport)
    requires box.activePlan == Some(p) && box.activeSports == [nba]
    requires nba.id != nfl.id
    ensures var added := OnChangeItemAt(box, pack, nfl).box;
      added.tempCart == [SportItem(nba, p, pack), SportItem(nfl, p, pack)]
      && OnChangeItemAt(added, pack, nfl).box.tempCart == [SportItem(nba, p, pack)]
  {
    var added := OnChangeItemAt(box, pack, nfl).box;
    assert added.activeSports == [nba, nfl];
    assert FindSport([nba, nfl], nfl) == 1;
    assert OnChangeItemAt(added, pack, nfl).box.activeSports == [nba];
  }

  /** Reading a selection back: the entries a selection puts in the cart,
      inside any page cart, give back its plan and its sports; an empty
      selection puts none, and the box is left as it is. */
  lemma {:induction false} RecoverSelection(box: FantasyState, pack: Package, cartItems: seq<CartItem>)
    requires Consistent(box, pack)
    requires ForPackage(cartItems, pack.id) == box.tempCart
    ensures SetCartFromProps(box, pack, cartItems) == box
  {
    if box.activePlan.Some? && |box.activeSports| > 0 {
      SportsOfSportItems(box.activeSports, box.activePlan.value, pack);
    }
  }

  /** After a click the re-derivation effect is a no-op when the forwarded
      entries come back out of the merge as they went in. */
  lemma {:induction false} SettlesAfterMerge(b: FantasyState, pack: Package, temp: seq<CartItem>)
    requires Consistent(b, pack) && UniqueIds(b.activeSports)
    requires b.activePlan.Some? ==> b.activePlan.value.package == pack.id
    requires PlanIdsAgree(temp, b.tempCart)
    ensures SetCartFromProps(b, pack, Merge(temp, pack, b.tempCart)) == b
  {
    if b.activePlan.Some? {
      SportItemsNoDupKeys(b.activeSports, b.activePlan.value, pack);
    }
    MergeRoundTrip(temp, pack, b.tempCart);
    RecoverSelection(b, pack, Merge(temp, pack, b.tempCart));
  }

  /** A plan click is stable under the page's round trip: merging the
      forwarded list into the temp cart and re-deriving the box from it (the
      effect that runs when the temp cart changes) gives back the state the
      click produced. */
  lemma PlanClickSettles(box: FantasyState, pack: Package, plan: BillingPlan, temp: seq<CartItem>)
    requires UniqueIds(box.activeSports)
    requires plan.package == pack.id
    requires forall x :: x in temp && x.plan.id == plan.id ==> x.plan.package == pack.id
    ensures var next := ChangeBillingPlan(box, pack, plan);
      SetCartFromProps(next.box, pack, Merge(temp, pack, next.forwarded)) == next.box
  {
    SettlesAfterMerge(ChangeBillingPlan(box, pack, plan).box, pack, temp);
  }

  /** A sport click is stable under the same round trip. */
  lemma SportClickSettles(box: FantasyState, pack: Package, sport: Sport, temp: seq<CartItem>)
    requires UniqueIds(box.activeSports)
    requires box.activePlan.Some? ==> box.activePlan.value.package == pack.id
    requires box.activePlan.Some? ==>
      forall x :: x in temp && x.plan.id == box.activePlan.value.id ==> x.plan.package == pack.id
    ensures var next := OnChangeItemAt(box, pack, sport);
      SetCartFromProps(next.box, pack, Merge(temp, pack, next.forwarded)) == next.box
  {
    SettlesAfterMerge(OnChangeItemAt(box, pack, sport).box, pack, temp);
  }
}

=== FILE: optional.dfy ===
/** An optional value: the model's reading of a TypeScript field that may be
    `undefined` or `null`. */
module Optional {

  datatype Option<+T> = None | Some(value: T)
}

=== FILE: seqs.dfy ===
/** Sequence helpers shared by the cart model: the order-preserving filter
    behind `Array.prototype.filter`, and `indexOf` on strings. */
module Seqs {

  /** The elements of `s` that satisfy `p`, in their original order. */
  function Filter<T(!new)>(s: seq<T>, p: T -> bool): (r: seq<T>)
    ensures |r| <= |s|
    ensures forall x :: x in r <==> x in s && p(x)
    decreases |s|
  {
    if |s| == 0 then []
    else
      var rest := Filter(s[1..], p);
      assert forall x :: x in s <==> x == s[0] || x in s[1..];
      if p(s[0]) then [s[0]] + rest else rest
  }

  /** Filtering distributes over concatenation: the filter keeps the
      relative order of the elements it keeps. */
  lemma {:induction false} FilterConcat<T(!new)>(a: seq<T>, b: seq<T>, p: T -> bool)
    ensures Filter(a + b, p) == Filter(a, p) + Filter(b, p)
    decreases |a|
  {
    if |a| == 0 {
      assert a + b == b;
    } else {
      assert (a + b)[1..] == a[1..] + b;
      FilterConcat(a[1..], b, p);
    }
  }

  /** A filter that every element passes is the identity. */
  lemma {:induction false} FilterAll<T(!new)>(s: seq<T>, p: T -> bool)
    requires forall x :: x in s ==> p(x)
    ensures Filter(s, p) == s
    decreases |s|
  {
    if |s| > 0 {
      assert forall x :: x in s[1..] ==> x in s;
      FilterAll(s[1..], p);
    }
  }

  /** A filter that no element passes is empty. */
  lemma FilterNone<T(!new)>(s: seq<T>, p: T -> bool)
    requires forall x :: x in s ==> !p(x)
    ensures Filter(s, p) == []
  {
    if Filter(s, p) != [] {
      assert Filter(s, p)[0] in Filter(s, p);
    }
  }

  /** Filtering by a predicate and by its complement splits `s` into two
      parts that together hold every element exactly as often as `s`. */
  lemma {:induction false} FilterComplement<T(!new)>(s: seq<T>, p: T -> bool, q: T -> bool)
    requires forall x :: q(x) == !p(x)
    ensures multiset(Filter(s, p)) + multiset(Filter(s, q)) == multiset(s)
    decreases |s|
  {
    if |s| > 0 {
      FilterComplement(s[1..], p, q);
      assert s == [s[0]] + s[1..];
    }
  }

  /** Filtering a three-element sequence keeps each element that passes, in
      order. */
  lemma FilterThree<T(!new)>(x: T, y: T, z: T, p: T -> bool)
    ensures Filter([x, y, z], p) ==
      (if p(x) then [x] else []) + (if p(y) then [y] else []) + (if p(z) then [z] else [])
  {
    var fz := if p(z) then [z] else [];
    var fy := if p(y) then [y] else [];
    var fx := if p(x) then [x] else [];
    assert [z][1..] == [];
    assert Filter([z], p) == fz + Filter([], p);
    assert [y, z][1..] == [z];
    assert Filter([y, z], p) == fy + Filter([z], p);
    assert [x, y, z][1..] == [y, z];
    assert Filter([x, y, z], p) == fx + Filter([y, z], p);
  }

  /** `a` is obtained from `b` by deleting elements: the elements of `a`
      appear in `b` in the same order. */
  predicate IsSubsequence<T(==)>(a: seq<T>, b: seq<T>)
    decreases |b|
  {
    |a| == 0 ||
    (|b| > 0 && ((a[0] == b[0] && IsSubsequence(a[1..], b[1..])) || IsSubsequence(a, b[1..])))
  }

  /** `sub` occurs in `s` starting at index `i`. */
  predicate OccursAt<T(==)>(s: seq<T>, sub: seq<T>, i: int) {
    0 <= i && i + |sub| <= |s| && s[i..i + |sub|] == sub
  }

  /** `s.indexOf(sub)`: the first index at which `sub` occurs in `s`, or -1. */
  function IndexOf<T(==)>(s: seq<T>, sub: seq<T>): (r: int)
    ensures r == -1 || OccursAt(s, sub, r)
    ensures r == -1 <==> forall i :: 0 <= i <= |s| ==> !OccursAt(s, sub, i)
    ensures forall i :: 0 <= i < r ==> !OccursAt(s, sub, i)
  {
    IndexFrom(s, sub, 0)
  }

  /** The first occurrence of `sub` in `s` at index `from` or later, or -1. */
  function IndexFrom<T(==)>(s: seq<T>, sub: seq<T>, from: nat): (r: int)
    requires from <= |s|
    ensures r == -1 || (from <= r && OccursAt(s, sub, r))
    ensures r == -1 <==> forall i :: from <= i <= |s| ==> !OccursAt(s, sub, i)
    ensures forall i :: from <= i < r ==> !OccursAt(s, sub, i)
    decreases |s| - from
  {
    if OccursAt(s, sub, from) then from
    else if from == |s| then -1
    else IndexFrom(s, sub, from + 1)
  }

  /** `s.indexOf(sub) > -1`. */
  predicate Contains<T(==)>(s: seq<T>, sub: seq<T>) {
    IndexOf(s, sub) > -1
  }
}

=== FILE: shop_page.dfy ===
/** The state of the `Shop` page itself: the persisted (store) cart, the
    page-local temp cart, the cart drawer, and which package view is shown.
    Each handler of the page is one pure step over this state. */
module ShopPage {
  import opened Optional
  import opened Seqs
  import opened Catalog
  import opened CartMerge

  /** The router's `query.plan`: absent, one string, or repeated. */
  datatype QueryPlan = Absent | Single(value: string) | Repeated(values: seq<string>)

  /** `cartItems` is the store's persisted cart (replaced wholesale by an
      `UPDATE_CART` dispatch); `tempCartItems` is the page-local cart. */
  datatype ShopState = ShopState(
    currentPlan: string,
    cartItems: seq<CartItem>,
    tempCartItems: seq<CartItem>,
    drawerOpen: bool)

  /** The outcome of a click in one of the package boxes: the box's new
      local state, and the list it passes to `changeTempCart`. */
  datatype Step<B> = Step(box: B, forwarded: seq<CartItem>)

  /** The package view a value of `currentPlan` renders. */
  datatype View = SportsCardView | VipView | FantasyView | Loading | NoView

  function ViewOf(currentPlan: string): (r: View)
    ensures r == SportsCardView <==> currentPlan == "sports_card"
    ensures r == VipView <==> currentPlan == "all"
    ensures r == FantasyView <==> currentPlan == "fantasy"
    ensures r == Loading <==> currentPlan == ""
    ensures r == NoView <==> currentPlan !in {"sports_card", "all", "fantasy", ""}
  {
    if currentPlan == "sports_card" then SportsCardView
    else if currentPlan == "all" then VipView
    else if currentPlan == "fantasy" then FantasyView
    else if currentPlan == "" then Loading
    else NoView
  }

  /** The page as first rendered: no view chosen yet, drawer closed, and the
      mount effect copying the persisted cart into the temp cart. */
  function Mount(cartItems: seq<CartItem>): (r: ShopState)
    ensures r.tempCartItems == r.cartItems == cartItems
    ensures ViewOf(r.currentPlan) == Loading && !r.drawerOpen
  {
    ShopState("", cartItems, cartItems, false)
  }

  /** The effect on `[query, sports]`: once sports are loaded, show the view
      named by a single `plan` query value, whatever string it is, and the
      VIP view otherwise. */
  function SelectView(s: ShopState, query: QueryPlan, sports: seq<Sport>): (r: ShopState)
    ensures r.cartItems == s.cartItems && r.tempCartItems == s.tempCartItems
    ensures r.drawerOpen == s.drawerOpen
    ensures |sports| == 0 ==> r.currentPlan == s.currentPlan
    ensures |sports| > 0 && query.Single? ==> r.currentPlan == query.value
    ensures |sports| > 0 && !query.Single? ==> ViewOf(r.currentPlan) == VipView
  {
    if |sports| > 0 then
      if query.Single? then s.(currentPlan := query.value) else s.(currentPlan := "all")
    else s
  }

  /** Any string is accepted as the view: an unrecognised `plan` value
      renders no package at all, and an empty one keeps the loading spinner,
      rather than falling back to the VIP view. */
  lemma SelectViewAcceptsAnyString(s: ShopState, sports: seq<Sport>, plan: string)
    requires |sports| > 0
    requires plan !in {"sports_card", "all", "fantasy"}
    ensures ViewOf(SelectView(s, Single(plan), sports).currentPlan) == (if plan == "" then Loading else NoView)
  {
  }

  /** `changeTempCart`: merge a package's new selection into the temp cart. */
  function ChangeTempCart(s: ShopState, pack: Package, items: seq<CartItem>): (r: ShopState)
    ensures r.tempCartItems == Merge(s.tempCartItems, pack, items)
    ensures r.cartItems == s.cartItems && r.drawerOpen == s.drawerOpen
    ensures r.currentPlan == s.currentPlan
    ensures AllInPackage(items, pack.id) ==>
      DropPackage(r.tempCartItems, pack.id) == DropPackage(s.tempCartItems, pack.id)
    ensures forall x :: x in ForPackage(r.tempCartItems, pack.id) ==> x in items
  {
    MergeOwnEntries(s.tempCartItems, pack, items);
    if AllInPackage(items, pack.id) then
      MergeKeepsOtherPackages(s.tempCartItems, pack, items);
      s.(tempCartItems := Merge(s.tempCartItems, pack, items))
    else
      s.(tempCartItems := Merge(s.tempCartItems, pack, items))
  }

  /** `addToCart`: an empty selection is ignored; otherwise the merged
      persisted cart is dispatched and the drawer opens. The temp cart is
      not touched. */
  function AddToCart(s: ShopState, pack: Package, items: seq<CartItem>): (r: ShopState)
    ensures |items| == 0 ==> r == s
    ensures |items| > 0 ==> r.drawerOpen && r.cartItems == Merge(s.cartItems, pack, items)
    ensures r.tempCartItems == s.tempCartItems && r.currentPlan == s.currentPlan
  {
    if |items| == 0 then s
    else s.(cartItems := Merge(s.cartItems, pack, items), drawerOpen := true)
  }

  /** Committing an empty selection never clears what was committed before
      for the package. */
  lemma AddEmptyKeepsCommitted(s: ShopState, pack: Package)
    ensures ForPackage(AddToCart(s, pack, []).cartItems, pack.id) == ForPackage(s.cartItems, pack.id)
    ensures !AddToCart(s, pack, []).drawerOpen || s.drawerOpen
  {
  }

  /** Committing a non-empty selection makes it the package's whole
      committed selection and leaves every other package's entries as they
      were. */
  lemma AddToCartCommits(s: ShopState, pack: Package, items: seq<CartItem>)
    requires |items| > 0
    requires AllInPackage(items, pack.id)
    requires NoDupKeys(items)
    requires PlanIdsAgree(s.cartItems, items)
    ensures ForPackage(AddToCart(s, pack, items).cartItems, pack.id) == items
    ensures DropPackage(AddToCart(s, pack, items).cartItems, pack.id) == DropPackage(s.cartItems, pack.id)
    ensures AddToCart(s, pack, items).drawerOpen
  {
    MergeRoundTrip(s.cartItems, pack, items);
  }

  /** `updateCart` (the drawer's edit callback): the persisted cart and the
      temp cart become the same list. */
  function UpdateCart(s: ShopState, items: seq<CartItem>): (r: ShopState)
    ensures r.cartItems == items && r.tempCartItems == items
    ensures r.drawerOpen == s.drawerOpen && r.currentPlan == s.currentPlan
  {
    s.(cartItems := items, tempCartItems := items)
  }
}

=== FILE: sport_selection.dfy ===
/** What the Fantasy and Sports Card boxes share: toggling a sport in a list
    of selected sports (matched by id), and the cart items a list of sports
    and one plan stand for. */
module SportSelection {
  import opened Optional
  import opened Catalog
  import opened CartMerge

  /** No sport id occurs twice. */
  predicate UniqueIds(sports: seq<Sport>) {
    forall i, j :: 0 <= i < j < |sports| ==> sports[i].id != sports[j].id
  }

  function Ids(sports: seq<Sport>): set<int> {
    set i | 0 <= i < |sports| :: sports[i].id
  }

  /** `active.findIndex((sp) => sp.id === sport.id)`. */
  function FindSport(active: seq<Sport>, sport: Sport): (r: int)
    ensures -1 <= r < |active|
    ensures r == -1 <==> sport.id !in Ids(active)
    ensures r >= 0 ==> active[r].id == sport.id && forall i :: 0 <= i < r ==> active[i].id != sport.id
    decreases |active|
  {
    if |active| == 0 then -1
    else if active[0].id == sport.id then 0
    else
      var k := FindSport(active[1..], sport);
      assert Ids(active) == {active[0].id} + Ids(active[1..]) by {
        assert forall i :: 0 < i < |active| ==> active[i] == active[1..][i - 1];
      }
      if k == -1 then -1 else k + 1
  }

  /** Appending a sport whose id is new adds exactly that id and keeps ids
      unique. */
  lemma AppendSportIds(active: seq<Sport>, sport: Sport)
    requires sport.id !in Ids(active)
    ensures Ids(active + [sport]) == Ids(active) + {sport.id}
    ensures UniqueIds(active) ==> UniqueIds(active + [sport])
  {
    var r := active + [sport];
    assert forall i :: 0 <= i < |active| ==> active[i].id in Ids(active) && r[i] == active[i];
    assert r[|active|] == sport;
    forall id | id in Ids(active) + {sport.id} ensures id in Ids(r) {
      if id == sport.id {
        assert r[|active|].id == id;
      } else {
        var i :| 0 <= i < |active| && active[i].id == id;
        assert r[i].id == id;
      }
    }
  }

  /** Removing the sport at `idx` from a list with unique ids removes exactly
      its id and keeps ids unique. */
  lemma RemoveSportIds(active: seq<Sport>, idx: int)
    requires 0 <= idx < |active|
    ensures var r := active[..idx] + active[idx + 1..];
      UniqueIds(active) ==> UniqueIds(r) && Ids(r) == Ids(active) - {active[idx].id}
  {
    var r := active[..idx] + active[idx + 1..];
    assert forall i :: 0 <= i < |r| ==> r[i] == if i < idx then active[i] else active[i + 1];
    if UniqueIds(active) {
      forall id | id in Ids(active) - {active[idx].id} ensures id in Ids(r) {
        var i :| 0 <= i < |active| && active[i].id == id;
        if i < idx { assert r[i] == active[i]; } else { assert r[i - 1] == active[i]; }
      }
    }
  }

  /** Clicking a sport: append it when no selected sport has its id,
      otherwise remove the first sport with that id. */
  function ToggleSport(active: seq<Sport>, sport: Sport): (r: seq<Sport>)
    ensures sport.id !in Ids(active) ==> r == active + [sport]
    ensures sport.id in Ids(active) ==> |r| == |active| - 1
    ensures sport.id in Ids(active) ==>
      r == active[..FindSport(active, sport)] + active[FindSport(active, sport) + 1..]
    ensures UniqueIds(active) ==> UniqueIds(r)
    ensures UniqueIds(active) ==>
      Ids(r) == if sport.id in Ids(active) then Ids(active) - {sport.id} else Ids(active) + {sport.id}
  {
    var idx := FindSport(active, sport);
    if idx < 0 then
      AppendSportIds(active, sport);
      active + [sport]
    else
      RemoveSportIds(active, idx);
      active[..idx] + active[idx + 1..]
  }

  /** Clicking a sport that is not selected twice restores the selection. */
  lemma {:induction false} ToggleAbsentTwice(active: seq<Sport>, sport: Sport)
    requires sport.id !in Ids(active)
    ensures ToggleSport(ToggleSport(active, sport), sport) == active
  {
    var once := active + [sport];
    assert ToggleSport(active, sport) == once;
    var idx := FindSport(once, sport);
    assert forall i :: 0 <= i < |active| ==> once[i].id in Ids(active) && once[i] == active[i];
    assert once[|active|].id == sport.id;
    assert idx == |active|;
    assert once[..idx] + once[idx + 1..] == active;
  }

  /** The cart item for one sport under a plan (the boxes leave `owner`
      unset). */
  function SportItem(sport: Sport, plan: BillingPlan, pack: Package): CartItem {
    CartItem(Some(sport), plan, pack, false, None)
  }

  /** `sports.forEach((s) => newCart.push({ sports: s, plan, ... }))`: one
      item per sport, in the order of the sports. */
  function SportItems(sports: seq<Sport>, plan: BillingPlan, pack: Package): (r: seq<CartItem>)
    ensures |r| == |sports|
    ensures forall i :: 0 <= i < |r| ==> r[i] == SportItem(sports[i], plan, pack)
    ensures forall x :: x in r ==> x.plan == plan && x.pack == pack && !x.autoRenewal
    decreases |sports|
  {
    if |sports| == 0 then []
    else [SportItem(sports[0], plan, pack)] + SportItems(sports[1..], plan, pack)
  }

  /** The sports of the items that have one, in order (the loop that
      rebuilds `activeSports` in `setCartFromProps`). */
  function SportsOf(items: seq<CartItem>): (r: seq<Sport>)
    ensures |r| <= |items|
    ensures forall s :: s in r <==> exists x :: x in items && x.sports == Some(s)
    decreases |items|
  {
    if |items| == 0 then []
    else
      var rest := SportsOf(items[1..]);
      assert forall x :: x in items <==> x == items[0] || x in items[1..];
      if items[0].sports.Some? then [items[0].sports.value] + rest else rest
  }

  /** Reading the sports back from the items of a selection gives the
      selection. */
  lemma {:induction false} SportsOfSportItems(sports: seq<Sport>, plan: BillingPlan, pack: Package)
    ensures SportsOf(SportItems(sports, plan, pack)) == sports
    decreases |sports|
  {
    if |sports| > 0 {
      var items := SportItems(sports, plan, pack);
      assert items[1..] == SportItems(sports[1..], plan, pack);
      SportsOfSportItems(sports[1..], plan, pack);
    }
  }

  /** Distinct sports under one plan give distinct cart keys. */
  lemma SportItemsNoDupKeys(sports: seq<Sport>, plan: BillingPlan, pack: Package)
    requires UniqueIds(sports)
    ensures NoDupKeys(SportItems(sports, plan, pack))
  {
    var items := SportItems(sports, plan, pack);
    forall i, j | 0 <= i < j < |items| ensures KeyOf(items[i]) != KeyOf(items[j]) {
      assert KeyOf(items[i]).sportId == Some(sports[i].id);
      assert KeyOf(items[j]).sportId == Some(sports[j].id);
    }
  }
}

=== FILE: sports_card_box.dfy ===
/** `ProductsAndCartBoxForSportsCard`: sports split into a regular group and
    an event-based group (UFC, Formula 1), each with its own selected plan
    and sports. The handlers are modelled as written, including which list
    each one keeps locally and which it forwards. */
module SportsCardBox {
  import opened Optional
  import opened Seqs
  import opened Catalog
  import opened CartMerge
  import opened ShopPage
  import opened SportSelection

  /** `NON_UFC_F1` selects the regular group, `''` the event group. */
  datatype Group = Regular | Event

  datatype SportsCardState = SportsCardState(
    regularSports: seq<Sport>,
    eventSports: seq<Sport>,
    activeSports1: seq<Sport>,
    activeSports2: seq<Sport>,
    activePlan1: Option<BillingPlan>,
    activePlan2: Option<BillingPlan>,
    tempCart: seq<CartItem>)
  {
    function ActiveSports(g: Group): seq<Sport> {
      if g == Regular then activeSports1 else activeSports2
    }

    function ActivePlan(g: Group): Option<BillingPlan> {
      if g == Regular then activePlan1 else activePlan2
    }

    /** The state with group `g`'s selection replaced. */
    function WithGroup(g: Group, sports: seq<Sport>, plan: Option<BillingPlan>): SportsCardState {
      if g == Regular then this.(activeSports1 := sports, activePlan1 := plan)
      else this.(activeSports2 := sports, activePlan2 := plan)
    }
  }

  predicate IsEventSport(s: Sport) {
    s.name == "UFC" || s.name == "Formula 1"
  }

  predicate IsRegularSport(s: Sport) {
    !IsEventSport(s)
  }

  /** The split made when the box loads its sports. */
  function PartitionSports(sports: seq<Sport>): (r: (seq<Sport>, seq<Sport>))
    ensures forall s :: s in r.0 <==> s in sports && !IsEventSport(s)
    ensures forall s :: s in r.1 <==> s in sports && IsEventSport(s)
    ensures multiset(r.0) + multiset(r.1) == multiset(sports)
  {
    FilterComplement(sports, IsRegularSport, IsEventSport);
    (Filter(sports, IsRegularSport), Filter(sports, IsEventSport))
  }

  /** The split keeps the order of the sports: splitting a concatenation
      concatenates the splits. */
  lemma PartitionKeepsOrder(a: seq<Sport>, b: seq<Sport>)
    ensures PartitionSports(a + b).0 == PartitionSports(a).0 + PartitionSports(b).0
    ensures PartitionSports(a + b).1 == PartitionSports(a).1 + PartitionSports(b).1
  {
    FilterConcat(a, b, IsRegularSport);
    FilterConcat(a, b, IsEventSport);
  }

  /** An item belongs to a group when it has a sport of that group; items
      without a sport belong to neither. */
  predicate InGroup(item: CartItem, g: Group) {
    item.sports.Some? && (IsEventSport(item.sports.value) <==> g == Event)
  }

  function InGroupPred(g: Group): CartItem -> bool {
    (item: CartItem) => InGroup(item, g)
  }

  function GroupItems(items: seq<CartItem>, g: Group): (r: seq<CartItem>)
    ensures forall x :: x in r <==> x in items && InGroup(x, g)
  {
    Filter(items, InGroupPred(g))
  }

  /** The repeated `setActivePlanN(cart.plan)` of the read-back loop: the
      plan of the last item of the group wins; with none, `current` stays. */
  function ScanPlan(items: seq<CartItem>, g: Group, current: Option<BillingPlan>): (r: Option<BillingPlan>)
    ensures (forall j :: 0 <= j < |items| ==> !InGroup(items[j], g)) ==> r == current
    ensures (exists j :: 0 <= j < |items| && InGroup(items[j], g)) ==>
      exists k :: 0 <= k < |items| && InGroup(items[k], g) && r == Some(items[k].plan) &&
        forall j :: k < j < |items| ==> !InGroup(items[j], g)
    decreases |items|
  {
    if |items| == 0 then current
    else
      var next := if InGroup(items[0], g) then Some(items[0].plan) else current;
      assert forall j :: 0 < j < |items| ==> items[j] == items[1..][j - 1];
      ScanPlan(items[1..], g, next)
  }

  /** `setCartFromProps`: split the sports, then, when the cart has entries
      for the package, adopt them and read each group's sports and plan back
      from them. The selected sports are reset either way; the plans and the
      local cart are kept when the package has no entries. */
  function SetCartFromProps(box: SportsCardState, pack: Package, sports: seq<Sport>, cartItems: seq<CartItem>)
    : (r: SportsCardState)
    ensures (r.regularSports, r.eventSports) == PartitionSports(sports)
    ensures |ForPackage(cartItems, pack.id)| == 0 ==>
      && r.activeSports1 == [] && r.activeSports2 == []
      && r.activePlan1 == box.activePlan1 && r.activePlan2 == box.activePlan2
      && r.tempCart == box.tempCart
    ensures |ForPackage(cartItems, pack.id)| > 0 ==>
      && r.tempCart == ForPackage(cartItems, pack.id)
      && (forall s :: s in r.activeSports1 <==>
            exists x :: x in r.tempCart && InGroup(x, Regular) && x.sports == Some(s))
      && (forall s :: s in r.activeSports2 <==>
            exists x :: x in r.tempCart && InGroup(x, Event) && x.sports == Some(s))
      && r.activePlan1 == ScanPlan(r.tempCart, Regular, box.activePlan1)
      && r.activePlan2 == ScanPlan(r.tempCart, Event, box.activePlan2)
  {
    var parts := PartitionSports(sports);
    var fromCart := ForPackage(cartItems, pack.id);
    if |fromCart| > 0 then
      SportsCardState(parts.0, parts.1,
        SportsOf(GroupItems(fromCart, Regular)), SportsOf(GroupItems(fromCart, Event)),
        ScanPlan(fromCart, Regular, box.activePlan1), ScanPlan(fromCart, Event, box.activePlan2),
        fromCart)
    else
      box.(regularSports := parts.0, eventSports := parts.1, activeSports1 := [], activeSports2 := [])
  }

  /** `cartItem.plan.id !== activePlan?.id`. */
  function NotOfPlan(active: Option<BillingPlan>): CartItem -> bool {
    (item: CartItem) => !IsActive(active, item.plan)
  }

  /** The cart without the items of the selected plan (all of it when no
      plan is selected), in order. */
  function WithoutPlan(cart: seq<CartItem>, active: Option<BillingPlan>): (r: seq<CartItem>)
    ensures forall x :: x in r <==> x in cart && !IsActive(active, x.plan)
    ensures active.None? ==> r == cart
  {
    if active.None? then
      FilterAll(cart, NotOfPlan(active));
      Filter(cart, NotOfPlan(active))
    else
      Filter(cart, NotOfPlan(active))
  }

  /** `cart.sports?.id !== sport.id`. */
  function NotOfSport(id: int): CartItem -> bool {
    (item: CartItem) => !(item.sports.Some? && item.sports.value.id == id)
  }

  /** The cart without the items of a sport, in order. */
  function WithoutSport(cart: seq<CartItem>, id: int): (r: seq<CartItem>)
    ensures forall x :: x in r <==> x in cart && !(x.sports.Some? && x.sports.value.id == id)
  {
    Filter(cart, NotOfSport(id))
  }

  /** `changeBillingPlan(plan, type)`, as written: the local cart drops the
      group's previously selected plan and, in the regular group only, gains
      the group's sports under the newly selected plan; the list forwarded
      to `changeTempCart` is the cart as it was before the click, to which
      only the event group appends its new items. */
  function ChangeBillingPlan(box: SportsCardState, pack: Package, plan: BillingPlan, g: Group)
    : (r: Step<SportsCardState>)
    ensures r.box.ActivePlan(g) == if IsActive(box.ActivePlan(g), plan) then None else Some(plan)
    ensures r.box == box.WithGroup(g, box.ActiveSports(g), r.box.ActivePlan(g)).(tempCart := r.box.tempCart)
    ensures r.box.tempCart == WithoutPlan(box.tempCart, box.ActivePlan(g)) +
      (if g == Regular && !IsActive(box.activePlan1, plan) then SportItems(box.activeSports1, plan, pack) else [])
    ensures r.forwarded == box.tempCart +
      (if g == Event && !IsActive(box.activePlan2, plan) then SportItems(box.activeSports2, plan, pack) else [])
  {
    var newCart := box.tempCart;
    var carts := WithoutPlan(newCart, box.ActivePlan(g));
    if IsActive(box.ActivePlan(g), plan) then
      Step(box.WithGroup(g, box.ActiveSports(g), None).(tempCart := carts), newCart)
    else if g == Regular then
      Step(box.WithGroup(g, box.activeSports1, Some(plan)).(tempCart := carts + SportItems(box.activeSports1, plan, pack)),
           newCart)
    else
      Step(box.WithGroup(g, box.activeSports2, Some(plan)).(tempCart := carts),
           newCart + SportItems(box.activeSports2, plan, pack))
  }

  /** An event-group plan click never adds anything to the local cart: its
      new items exist only in the forwarded list. */
  lemma EventPlanStaysOutOfLocalCart(box: SportsCardState, pack: Package, plan: BillingPlan)
    ensures var r := ChangeBillingPlan(box, pack, plan, Event);
      (forall x :: x in r.box.tempCart ==> x in box.tempCart) &&
      (!IsActive(box.activePlan2, plan) ==>
        forall s :: s in box.activeSports2 ==> SportItem(s, plan, pack) in r.forwarded)
  {
    var r := ChangeBillingPlan(box, pack, plan, Event);
    if !IsActive(box.activePlan2, plan) {
      var items := SportItems(box.activeSports2, plan, pack);
      forall s | s in box.activeSports2 ensures SportItem(s, plan, pack) in r.forwarded {
        var i :| 0 <= i < |box.activeSports2| && box.activeSports2[i] == s;
        assert r.forwarded[|box.tempCart| + i] == items[i];
      }
    }
  }

  /** Deselecting a plan forwards the cart as it was, so the items of the
      deselected plan are still in the list passed to `changeTempCart`
      although they have left the local cart. */
  lemma DeselectForwardsPreviousCart(box: SportsCardState, pack: Package, plan: BillingPlan, g: Group, x: CartItem)
    requires IsActive(box.ActivePlan(g), plan)
    requires x in box.tempCart && x.plan.id == plan.id
    ensures var r := ChangeBillingPlan(box, pack, plan, g);
      x in r.forwarded && x !in r.box.tempCart
  {
  }

  /** Example: NBA under P1, UFC under P2 and MLB under P1, in that order;
      clicking P1 again removes exactly the two regular items. */
  lemma ClearRegularPlanExample(box: SportsCardState, pack: Package, p1: BillingPlan, p2: BillingPlan,
                                nba: Sport, mlb: Sport, ufc: Sport)
    requires p1.id != p2.id
    requires box.activePlan1 == Some(p1)
    requires box.tempCart == [SportItem(nba, p1, pack), SportItem(ufc, p2, pack), SportItem(mlb, p1, pack)]
    ensures ChangeBillingPlan(box, pack, p1, Regular).box.tempCart == [SportItem(ufc, p2, pack)]
  {
    FilterThree(SportItem(nba, p1, pack), SportItem(ufc, p2, pack), SportItem(mlb, p1, pack), NotOfPlan(Some(p1)));
  }

  /** The total of a regular-group selection: what stays of the cart plus
      one plan price per selected regular sport. */
  lemma RegularPlanTotal(box: SportsCardState, pack: Package, plan: BillingPlan)
    requires !IsActive(box.activePlan1, plan)
    ensures TotalPrice(ChangeBillingPlan(box, pack, plan, Regular).box.tempCart) ==
      TotalPrice(WithoutPlan(box.tempCart, box.activePlan1)) + |box.activeSports1| * plan.price
  {
    var items := SportItems(box.activeSports1, plan, pack);
    TotalPriceConcat(WithoutPlan(box.tempCart, box.activePlan1), items);
    TotalPriceUniform(items, plan);
  }

  /** `onChangeItemAt(sport, type)`: toggle the sport in the group; removing
      it drops every cart item of that sport, adding it appends one item
      under the group's plan if one is selected. */
  function OnChangeItemAt(box: SportsCardState, pack: Package, sport: Sport, g: Group)
    : (r: Step<SportsCardState>)
    ensures r.box == box.WithGroup(g, ToggleSport(box.ActiveSports(g), sport), box.ActivePlan(g)).(tempCart := r.box.tempCart)
    ensures r.forwarded == r.box.tempCart
    ensures sport.id in Ids(box.ActiveSports(g)) ==> r.box.tempCart == WithoutSport(box.tempCart, sport.id)
    ensures sport.id !in Ids(box.ActiveSports(g)) && box.ActivePlan(g).Some? ==>
      r.box.tempCart == box.tempCart + [SportItem(sport, box.ActivePlan(g).value, pack)]
    ensures sport.id !in Ids(box.ActiveSports(g)) && box.ActivePlan(g).None? ==>
      r.box.tempCart == box.tempCart
  {
    var active := box.ActiveSports(g);
    var toggled := ToggleSport(active, sport);
    var newCart :=
      if FindSport(active, sport) < 0 then
        if box.ActivePlan(g).Some? then box.tempCart + [SportItem(sport, box.ActivePlan(g).value, pack)]
        else box.tempCart
      else WithoutSport(box.tempCart, sport.id);
    Step(box.WithGroup(g, toggled, box.ActivePlan(g)).(tempCart := newCart), newCart)
  }

  /** Removing a sport keeps the remaining items in their order. */
  lemma RemoveSportKeepsOrder(a: seq<CartItem>, b: seq<CartItem>, id: int)
    ensures WithoutSport(a + b, id) == WithoutSport(a, id) + WithoutSport(b, id)
  {
    FilterConcat(a, b, NotOfSport(id));
  }

  /** Selecting a sport and deselecting it again restores the box, provided
      the cart held no item of that sport before: the item the first click
      appends is exactly what the second click removes. */
  lemma AddThenRemoveSport(box: SportsCardState, pack: Package, sport: Sport, g: Group)
    requires sport.id !in Ids(box.ActiveSports(g))
    requires forall x :: x in box.tempCart ==> !(x.sports.Some? && x.sports.value.id == sport.id)
    ensures OnChangeItemAt(OnChangeItemAt(box, pack, sport, g).box, pack, sport, g).box == box
  {
    var once := OnChangeItemAt(box, pack, sport, g).box;
    assert once.ActiveSports(g) == box.ActiveSports(g) + [sport];
    assert sport.id in Ids(once.ActiveSports(g)) by {
      assert once.ActiveSports(g)[|box.ActiveSports(g)|] == sport;
    }
    ToggleAbsentTwice(box.ActiveSports(g), sport);
    FilterAll(box.tempCart, NotOfSport(sport.id));
    if box.ActivePlan(g).Some? {
      var added := [SportItem(sport, box.ActivePlan(g).value, pack)];
      RemoveSportKeepsOrder(box.tempCart, added, sport.id);
      FilterNone(added, NotOfSport(sport.id));
    }
  }

  /** A group's plan read back from a cart whose items of that group all
      carry one plan is that plan. */
  lemma ScanUniformPlan(items: seq<CartItem>, g: Group, plan: BillingPlan, current: Option<BillingPlan>)
    requires exists j :: 0 <= j < |items| && InGroup(items[j], g)
    requires forall x :: x in items && InGroup(x, g) ==> x.plan == plan
    ensures ScanPlan(items, g, current) == Some(plan)
  {
  }

  /** Reading plans back from any page cart: when the package has entries
      and the entries of each group share one plan, the box adopts the
      package's entries and selects that plan for every group that has an
      entry, keeping its plan for a group that has none. */
  lemma RecoverPlans(box: SportsCardState, pack: Package, sports: seq<Sport>, cart: seq<CartItem>,
                     p1: BillingPlan, p2: BillingPlan)
    requires |ForPackage(cart, pack.id)| > 0
    requires forall x :: x in ForPackage(cart, pack.id) && InGroup(x, Regular) ==> x.plan == p1
    requires forall x :: x in ForPackage(cart, pack.id) && InGroup(x, Event) ==> x.plan == p2
    ensures var own := ForPackage(cart, pack.id);
      var r := SetCartFromProps(box, pack, sports, cart);
      && r.tempCart == own
      && r.activePlan1 == (if exists j :: 0 <= j < |own| && InGroup(own[j], Regular) then Some(p1) else box.activePlan1)
      && r.activePlan2 == (if exists j :: 0 <= j < |own| && InGroup(own[j], Event) then Some(p2) else box.activePlan2)
  {
    var own := ForPackage(cart, pack.id);
    if exists j :: 0 <= j < |own| && InGroup(own[j], Regular) {
      ScanUniformPlan(own, Regular, p1, box.activePlan1);
    }
    if exists j :: 0 <= j < |own| && InGroup(own[j], Event) {
      ScanUniformPlan(own, Event, p2, box.activePlan2);
    }
  }

  /** Example: a cart whose only entry for the package is NBA under P1,
      next to another package's entry, selects P1 for the regular group and
      keeps the event group's plan. */
  lemma RegularOnlyReadBack(box: SportsCardState, pack: Package, sports: seq<Sport>,
                            p1: BillingPlan, nba: Sport, other: CartItem)
    requires p1.package == pack.id && !IsEventSport(nba)
    requires other.plan.package != pack.id
    ensures var cart := [other, SportItem(nba, p1, pack)];
      var r := SetCartFromProps(box, pack, sports, cart);
      r.activePlan1 == Some(p1) && r.activePlan2 == box.activePlan2 && r.activeSports1 == [nba]
  {
    var x := SportItem(nba, p1, pack);
    var cart := [other, x];
    assert cart == [other] + [x];
    FilterConcat([other], [x], InPackage(pack.id));
    FilterNone([other], InPackage(pack.id));
    FilterAll([x], InPackage(pack.id));
    assert ForPackage(cart, pack.id) == [x];
    RecoverPlans(box, pack, sports, cart, p1, p1);
    assert InGroup([x][0], Regular);
    FilterAll([x], InGroupPred(Regular));
    FilterNone([x], InGroupPred(Event));
    RecoverSports(box, pack, sports, cart, [nba], p1, [], p1);
  }

  /** Reading sports back from any page cart: when the package's entries of
      each group are one selection's items, in any interleaving of the two
      groups and among any other packages' entries, the box gets back both
      lists of selected sports in order, whether or not either group is
      empty. */
  lemma RecoverSports(box: SportsCardState, pack: Package, sports: seq<Sport>, cart: seq<CartItem>,
                      s1: seq<Sport>, p1: BillingPlan, s2: seq<Sport>, p2: BillingPlan)
    requires GroupItems(ForPackage(cart, pack.id), Regular) == SportItems(s1, p1, pack)
    requires GroupItems(ForPackage(cart, pack.id), Event) == SportItems(s2, p2, pack)
    ensures var r := SetCartFromProps(box, pack, sports, cart);
      r.activeSports1 == s1 && r.activeSports2 == s2
  {
    SportsOfSportItems(s1, p1, pack);
    SportsOfSportItems(s2, p2, pack);
  }

  /** The groups of a cart with a regular item, an event item and another
      regular item. */
  lemma InterleavedGroups(x: CartItem, y: CartItem, z: CartItem)
    requires InGroup(x, Regular) && InGroup(y, Event) && InGroup(z, Regular)
    ensures GroupItems([x, y, z], Regular) == [x, z]
    ensures GroupItems([x, y, z], Event) == [y]
  {
    FilterThree(x, y, z, InGroupPred(Regular));
    FilterThree(x, y, z, InGroupPred(Event));
  }

  /** Example: adding NBA under P1, then UFC under P2, then MLB under P1
      interleaves the groups in the cart; reading it back still gives
      [NBA, MLB] and [UFC]. */
  lemma InterleavedReadBack(box: SportsCardState, pack: Package, sports: seq<Sport>,
                            p1: BillingPlan, p2: BillingPlan, nba: Sport, ufc: Sport, mlb: Sport)
    requires p1.package == pack.id && p2.package == pack.id
    requires !IsEventSport(nba) && !IsEventSport(mlb) && IsEventSport(ufc)
    ensures var cart := [SportItem(nba, p1, pack), SportItem(ufc, p2, pack), SportItem(mlb, p1, pack)];
      var r := SetCartFromProps(box, pack, sports, cart);
      r.activeSports1 == [nba, mlb] && r.activeSports2 == [ufc]
  {
    var x, y, z := SportItem(nba, p1, pack), SportItem(ufc, p2, pack), SportItem(mlb, p1, pack);
    InterleavedGroups(x, y, z);
    var s1 := SportItems([nba, mlb], p1, pack);
    assert s1 == [x, z] by {
      assert |s1| == 2 && s1[0] == x && s1[1] == z;
    }
    var s2 := SportItems([ufc], p2, pack);
    assert s2 == [y] by {
      assert |s2| == 1 && s2[0] == y;
    }
    FilterAll([x, y, z], InPackage(pack.id));
    RecoverSports(box, pack, sports, [x, y, z], [nba, mlb], p1, [ufc], p2);
  }
}

=== FILE: user_reducer.dfy ===
/** The authentication reducer: login and signup state plus the token kept
    in the browser's local storage, which the reducer writes as a side
    effect and which is modelled here as part of the state. */
module UserReducer {
  import opened Optional

  const TokenKey: string := "token"

  /** `null` and `undefined` are both `None`. `storage` stands for
      `localStorage`. */
  datatype UserState<P> = UserState(
    token: Option<string>,
    profile: Option<P>,
    error: Option<string>,
    loading: bool,
    storage: map<string, string>)

  datatype LoginPayload<P> = LoginPayload(user: P, jwt: string)

  /** The actions the reducer distinguishes; any other type string is
      `Other`. A success or failure may arrive without its payload or error. */
  datatype Action<P> =
    | SignupUserRequest
    | SignupUserSuccess(signedUp: Option<P>)
    | SignupUserFailure(signupError: Option<string>)
    | LoginUserRequest
    | LoginUserSuccess(payload: Option<LoginPayload<P>>)
    | LoginUserFailure(loginError: Option<string>)
    | LogOut
    | Other(kind: string)

  /** The state before any action, over whatever the storage already holds. */
  function InitialState<P>(storage: map<string, string>): (r: UserState<P>)
    ensures r.token.None? && r.profile.None? && r.error.None? && !r.loading
    ensures r.storage == storage
  {
    UserState(None, None, None, false, storage)
  }

  /** `userReducer(state, action)`. */
  function Reduce<P>(s: UserState<P>, a: Action<P>): (r: UserState<P>)
    ensures a.Other? || (a.LoginUserSuccess? && a.payload.None?) ==> r == s
    ensures a.SignupUserRequest? ==>
      r.loading && r.error.None? && r.token == s.token && r.profile == s.profile && r.storage == s.storage
    ensures a.SignupUserSuccess? ==>
      r.profile == a.signedUp && !r.loading && r.token == s.token && r.error == s.error && r.storage == s.storage
    ensures a.SignupUserFailure? ==>
      r.error == a.signupError && !r.loading && r.token == s.token && r.profile == s.profile && r.storage == s.storage
    ensures a.LoginUserRequest? ==>
      r.loading && r.error.None? && r.token.None? && r.profile.None? && r.storage == s.storage
    ensures a.LoginUserSuccess? && a.payload.Some? ==>
      && r.token == Some(a.payload.value.jwt) && r.profile == Some(a.payload.value.user)
      && !r.loading && r.error == s.error
      && TokenKey in r.storage && r.storage[TokenKey] == a.payload.value.jwt
      && r.storage - {TokenKey} == s.storage - {TokenKey}
    ensures a.LoginUserFailure? ==>
      r.error == a.loginError && !r.loading && r.token == s.token && r.profile == s.profile && r.storage == s.storage
    ensures a.LogOut? ==>
      && r.token.None? && r.profile.None? && r.error.None? && !r.loading
      && TokenKey !in r.storage && r.storage - {TokenKey} == s.storage - {TokenKey}
  {
    match a
    case SignupUserRequest => s.(loading := true, error := None)
    case SignupUserSuccess(p) => s.(profile := p, loading := false)
    case SignupUserFailure(e) => s.(error := e, loading := false)
    case LoginUserRequest => s.(loading := true, error := None, token := None, profile := None)
    case LoginUserSuccess(payload) =>
      if payload.Some? then
        s.(storage := s.storage[TokenKey := payload.value.jwt],
           profile := Some(payload.value.user), loading := false, token := Some(payload.value.jwt))
      else s
    case LoginUserFailure(e) => s.(error := e, loading := false)
    case LogOut =>
      s.(storage := s.storage - {TokenKey}, loading := false, error := None, token := None, profile := None)
    case Other(_) => s
  }

  /** Actions applied in order. */
  function Run<P>(s: UserState<P>, actions: seq<Action<P>>): UserState<P>
    decreases |actions|
  {
    if |actions| == 0 then s else Run(Reduce(s, actions[0]), actions[1..])
  }

  /** A token held in memory is the token in storage. */
  predicate TokenStored<P>(s: UserState<P>) {
    s.token.Some? ==> TokenKey in s.storage && s.storage[TokenKey] == s.token.value
  }

  /** Signup actions never touch the token or the storage. */
  lemma SignupLeavesSession<P>(s: UserState<P>, a: Action<P>)
    requires a.SignupUserRequest? || a.SignupUserSuccess? || a.SignupUserFailure?
    ensures Reduce(s, a).token == s.token && Reduce(s, a).storage == s.storage
  {
  }

  /** No action writes any storage key other than the token's. */
  lemma OnlyTokenKeyWritten<P>(s: UserState<P>, a: Action<P>, k: string)
    requires k != TokenKey
    ensures k in Reduce(s, a).storage <==> k in s.storage
    ensures k in s.storage ==> Reduce(s, a).storage[k] == s.storage[k]
  {
  }

  /** Every action keeps the in-memory token and the stored token in step. */
  lemma ReducePreservesTokenStored<P>(s: UserState<P>, a: Action<P>)
    requires TokenStored(s)
    ensures TokenStored(Reduce(s, a))
  {
  }

  /** So does every sequence of actions from any state that starts in
      step, in particular from the initial state. */
  lemma {:induction false} RunPreservesTokenStored<P>(s: UserState<P>, actions: seq<Action<P>>)
    requires TokenStored(s)
    ensures TokenStored(Run(s, actions))
    decreases |actions|
  {
    if |actions| > 0 {
      ReducePreservesTokenStored(s, actions[0]);
      RunPreservesTokenStored(Reduce(s, actions[0]), actions[1..]);
    }
  }

  /** After a successful login followed by a logout, neither memory nor
      storage holds a token. */
  lemma LoginThenLogout<P>(s: UserState<P>, user: P, jwt: string)
    ensures var r := Run(s, [LoginUserSuccess(Some(LoginPayload(user, jwt))), LogOut]);
      r.token.None? && TokenKey !in r.storage && !r.loading
  {
    var a := Reduce(s, LoginUserSuccess(Some(LoginPayload(user, jwt))));
    assert Run(s, [LoginUserSuccess(Some(LoginPayload(user, jwt))), LogOut]) == Run(a, [LogOut]);
    assert Run(a, [LogOut]) == Run(Reduce(a, LogOut), []);
  }
}

=== FILE: vip_box.dfy ===
/** `ProductsAndCartBox`, the "VIP All Access" card: one flat plan for all
    sports, toggled on and off. */
module VipBox {
  import opened Optional
  import opened Seqs
  import opened Catalog
  import opened CartMerge
  import opened ShopPage

  datatype VipState = VipState(activePlan: Option<BillingPlan>, tempCart: seq<CartItem>)

  /** The single item the card puts in the cart for a plan. */
  function VipItem(plan: BillingPlan, pack: Package): CartItem {
    CartItem(None, plan, pack, false, Some(0))
  }

  /** `setCartFromProps`: adopt the package's entries of the given cart and
      the plan of the first of them; keep the current state when there are
      none. */
  function SetCartFromProps(box: VipState, pack: Package, cartItems: seq<CartItem>): (r: VipState)
    ensures |ForPackage(cartItems, pack.id)| == 0 ==> r == box
    ensures |ForPackage(cartItems, pack.id)| > 0 ==>
      && r.tempCart == ForPackage(cartItems, pack.id)
      && r.activePlan == Some(r.tempCart[0].plan)
      && r.tempCart[0].plan.package == pack.id
  {
    var fromCart := ForPackage(cartItems, pack.id);
    if |fromCart| > 0 then
      assert fromCart[0] in fromCart;
      VipState(Some(fromCart[0].plan), fromCart)
    else box
  }

  /** `changeSportCard`: clicking the selected plan clears the card; clicking
      any other plan makes it the only item. */
  function ChangeSportCard(box: VipState, pack: Package, plan: BillingPlan): (r: Step<VipState>)
    ensures IsActive(box.activePlan, plan) ==> r.box.activePlan.None? && r.box.tempCart == []
    ensures !IsActive(box.activePlan, plan) ==>
      r.box.activePlan == Some(plan) && r.box.tempCart == [VipItem(plan, pack)]
    ensures r.forwarded == r.box.tempCart
    ensures TotalPrice(r.box.tempCart) == if IsActive(box.activePlan, plan) then 0 else plan.price
  {
    if !IsActive(box.activePlan, plan) then
      var newCart := [VipItem(plan, pack)];
      Step(VipState(Some(plan), newCart), newCart)
    else
      Step(VipState(None, []), [])
  }

  /** Toggling a plan that is not selected twice leaves the card empty. */
  lemma ToggleTwiceEmpties(box: VipState, pack: Package, plan: BillingPlan)
    requires !IsActive(box.activePlan, plan)
    ensures var twice := ChangeSportCard(ChangeSportCard(box, pack, plan).box, pack, plan);
      twice.box.tempCart == [] && twice.box.activePlan.None? && twice.forwarded == []
  {
  }

  /** Clicking plan A and then a different plan B leaves only B, whatever
      was selected before. */
  lemma SwitchKeepsOnlyLast(box: VipState, pack: Package, a: BillingPlan, b: BillingPlan)
    requires a.id != b.id
    ensures var after := ChangeSportCard(ChangeSportCard(box, pack, a).box, pack, b);
      after.box.tempCart == [VipItem(b, pack)] && after.box.activePlan == Some(b)
  {
  }

  /** The click is stable under the page's round trip: merging the forwarded
      list into the temp cart and re-deriving the card from it (the effect
      that runs when the temp cart changes) gives back the state the click
      produced. */
  lemma ClickSettles(box: VipState, pack: Package, plan: BillingPlan, temp: seq<CartItem>)
    requires plan.package == pack.id
    requires forall x :: x in temp && x.plan.id == plan.id ==> x.plan.package == plan.package
    ensures var step := ChangeSportCard(box, pack, plan);
      SetCartFromProps(step.box, pack, Merge(temp, pack, step.forwarded)) == step.box
  {
    var step := ChangeSportCard(box, pack, plan);
    MergeRoundTrip(temp, pack, step.forwarded);
  }
}
